=== FILE: README.md ===
# TaskBoard users and columns: access rules and guarded table updates

A Dafny model of the core of two controllers of a kanban board API: `Users`
and `Columns`. The model covers:

- who may see and change which user;
- how a user's board membership (the `board_user` link rows behind every
  board's shared-user list) is reconciled with a requested list;
- how each column handler either refuses with the table unchanged or makes
  exactly one insert, replace or delete.

The ORM is abstracted as plain state. The class `Tables.Db` holds the tables:

- `users`, `userOptions` and `columns` are maps from row id to record;
- `boards` is a set of ids;
- `boardUser` is the link relation as `(board_id, user_id)` pairs;
- `collapsed` is the set of `(user_id, column_id)` pairs.

`R::load` becomes a lookup that yields id 0 for a missing row (`LoadedId`).
`R::store` of a loaded bean replaces its row. `R::store` of a dispensed or
empty bean inserts under a fresh id (`NextId`). `R::trash` removes a key.

Every handler is a method over `Db`. Its `modifies` clause names the tables
the handler writes, and its `ensures` give the outcome of every guard and the
new table contents. Every handler that writes a table keeps `Db.Valid()`:
row ids are positive. `addColumn` and `removeColumn` also keep
`Db.ColumnsOnBoards()`, the rule that a column's board must exist.

Collaborators that are not part of this model become inputs:

- `secureRoute` is modelled by `RouteStatus`. It is assumed to accept when the
  token validates and the actor's stored level is at least the required one.
  The hierarchy is ADMIN above BOARD_ADMIN above USER.
- `checkBoardAccess` and `Auth::HasBoardAccess` are parameters: the set of
  board ids for which they answer yes during the request.
- `password_verify` is a boolean input.
- `password_hash` is a function parameter, `hashOf`.
- The success of `BeanLoader::Load*` is a boolean input. A loaded bean takes
  the body's fields.

Behaviour of the code that the contracts pin down:

- `updateBoardAccess` drops the boards the user holds but did not request
  only when the request names at least one board the user does not hold. A
  request that is a subset of the held boards changes nothing. An id of 0 or
  less in the request is never linked, but it does count as "not held", so it
  can trigger that removal.
- `getUser` has no "see yourself" fallback. A user on no board gets 403 when
  reading their own record. `getAllUsersCleaned` does have the fallback.
- `updateColumn` checks board access on the stored column's board. It never
  checks the board named in the body, which need not exist. So
  `ColumnsOnBoards` is kept only when the body's board exists.
- `removeColumn(0)` and `removeUser(0)` pass the "loaded id equals requested
  id" guard, because the empty bean has id 0. They answer success and remove
  nothing. `removeColumn(0)` also needs access to board 0 for this.
- `updateUser` with a path id and a body id that both name no row passes
  the id guard (0 equals 0). An admin then stores the body as a new user.

## Model

| member | source | states |
|---|---|---|
| `Tables.RouteStatus` | api/controllers/Columns.php:34-37 | The assumed `secureRoute` check: success iff the token validates and the actor exists with a level at least the required one. An invalid token is Unauthorized; everything else is Forbidden. |
| `Tables.NextId` | api/controllers/Columns.php:57 | The id a store of a fresh bean receives is positive, absent from the table and above every existing id. |
| `Tables.HeldBoards` | api/controllers/Users.php:381-393 | The boards a user is on are exactly those with a `board_user` row linking them to the user. |
| `Users.UsernameTaken` | api/controllers/Users.php:433-442 | A username is taken iff some stored user row has that name. |
| `Tables.Db.SharedUsers` | api/controllers/Users.php:400-402 | A loaded board's `sharedUserList` holds exactly the existing users linked to it by `board_user`. It is empty when the board does not exist. |
| `Tables.Db.VisibleUserIds` | api/controllers/Users.php:395-410 | Every user someone may see exists. |
| `Tables.Db.VisibleIsUnionOfShared` | api/controllers/Users.php:395-410 | The visible set is exactly the union of the shared lists of the boards the user is linked to: every member of such a list is in it, and each of its members is on one. |
| `Users.CheckUserAccess` | api/controllers/Users.php:444-455 | An existing actor may change a user iff the actor is that user or is ADMIN. An actor with no row matches only a user with no row, since both load as id 0. |
| `Users.CleanUser` | api/controllers/Users.php:412-431 | The returned user has no password hash and no active token. Every other field is the stored one. `board_access` is exactly the existing boards linked to the user. |
| `Users.BoardAccessAfter` | api/controllers/Users.php:315-338 | The full effect of a boardAccess list. Other users' links are untouched. Ids of 0 or less are neither added nor removed. Every requested positive board that is not held and not already accessible is added, and nothing else is. Requested held boards stay. A request that is a subset of the held boards changes nothing. Otherwise exactly the held positive boards absent from the request are dropped. |
| `Users.AddUserToBoard` | api/controllers/Users.php:340-347 | Adds the link only for a positive board id that `HasBoardAccess` does not already grant. Otherwise the table is unchanged. |
| `Users.RemoveUserFromBoard` | api/controllers/Users.php:349-355 | Removes the link only for a positive board id. Otherwise the table is unchanged. |
| `Users.UpdateBoardAccess` | api/controllers/Users.php:315-338 | Without a boardAccess list nothing changes. With one, the new `board_user` is `BoardAccessAfter` of the old. |
| `Users.UpdateDefaultBoardId` | api/controllers/Users.php:466-476 | Nothing changes if the default is unchanged or the new default is 0. Otherwise a present list ends up containing the new default. The list is either left alone or gets the default appended once, and it is left alone when it already has the default. An absent list stays absent. |
| `Users.GetUserIdsByBoardAccess` | api/controllers/Users.php:381-410 | Returns a duplicate-free list whose members are exactly `VisibleUserIds` of the user. |
| `Users.GetAllUsersCleaned` | api/controllers/Users.php:357-379 | Returns distinct, cleaned, existing users. An ADMIN actor gets every user. Anyone else gets exactly the visible set, or only themselves (if they exist) when that set is empty. |
| `Users.Toggled` | api/controllers/Users.php:257-272 | Toggling a (user, column) row puts it in iff it was absent. Every other row keeps its membership. |
| `Users.ToggleTwiceRestores` | api/controllers/Users.php:257-272 | Toggling the same row twice restores the original table. |
| `Users.ToggleCollapsed` | api/controllers/Users.php:241-280 | A non-self actor gets 403 and the table is unchanged. Otherwise the row is toggled, other users' rows are untouched, and the reply holds exactly that user's rows. |
| `Users.GetAllUsers` | api/controllers/Users.php:6-17 | The outcome is the role check's. On success the reply lists each user at most once, cleaned: every user for an ADMIN, otherwise exactly the visible set, or only the actor when that set is empty. |
| `Users.GetUser` | api/controllers/Users.php:19-49 | An id with no row gives an error alert. An existing user outside the actor's visible set gives 403. Success, with the cleaned user, happens iff the user is visible. |
| `Users.UpdateUser` | api/controllers/Users.php:116-192 | Each guard is pinned to its answer, in order: the role check's status; no id in the body gives an error alert; `checkUserAccess` denying gives 403; a wrong old password gives an error alert; path and body ids loading as different rows give an error alert; a name change (or a path id with no row) to a username some stored user already has gives an error alert. Success happens iff every guard passes, and on any failure nothing is stored. On success an existing user's row under the path id becomes the body's record; when neither id has a row the record is stored under a fresh id. The active token is always the stored one. The hash changes only after a verified old password or through a non-empty `password`. `board_user` becomes `BoardAccessAfter` of the list that `UpdateDefaultBoardId` produced. |
| `Users.UpdateUserOptions` | api/controllers/Users.php:194-239 | A non-self actor gets 403. A loader failure, or a body option id that loads as a different row from the user's own option row, gives an error alert. Success happens iff the role check passes, the actor is the user, the loader succeeds and the two option ids load as the same row. The stored row is then the body's options under that id, or a new id when neither id loads. Nothing changes on failure. |
| `Users.AddUser` | api/controllers/Users.php:51-114 | Admins only. A taken username gives an error alert; so does a loader failure with a free username. Either way nothing is stored. Success stores one new option row with the defaults and one new user row linked to it. The hash comes from `password` only when it equals `password_verify`. The default board joins the requested list. The reply lists every user exactly once, cleaned. |
| `Users.RemoveUser` | api/controllers/Users.php:282-313 | Admins only. An id that does not load as itself gives an error alert with nothing removed. Success removes exactly that id, which for id 0 means nothing. The reply lists each user at most once, cleaned: every user while the admin still has a row, and only the users sharing a board with them after they removed themselves. |
| `Columns.GetColumn` | api/controllers/Columns.php:6-31 | An id with no row gives an error alert and no data, not 403. Denied board access gives 403. Success returns the stored column iff it exists and its board is accessible. |
| `Columns.AddColumn` | api/controllers/Columns.php:33-69 | A loader failure or a board that does not exist gives an error alert. Denied access gives 403. In both cases nothing is stored. Success inserts exactly the body under a new id. Only BOARD_ADMIN or above changes the table. The rule that a column's board exists is kept. |
| `Columns.UpdateColumn` | api/controllers/Columns.php:71-119 | A missing id argument, a column with no row or a loader failure gives an error alert with the table unchanged. Denied access to the stored column's board gives 403; the body's board is not checked. Success replaces exactly the row under the path id with the body. Only BOARD_ADMIN or above changes the table. |
| `Columns.RemoveColumn` | api/controllers/Columns.php:121-155 | A non-zero id with no row gives an error alert. Denied access to the column's board gives 403, and for id 0 so does denied access to board 0. In both cases nothing is trashed. Success removes exactly that id, every other column is unchanged, and the rule that a column's board exists is kept. |

## Left out

- RedBeanPHP persistence and SQL are not modelled. Tables are maps and sets.
  Row order is not modelled, so lists built from query results come back in
  an unspecified order, and only their members and distinctness are stated.
- Auto-increment is modelled as one more than the largest id the table holds.
  A real database never reuses an id, even after deletes.
- `secureRoute`, `Auth::ValidateToken`, `Auth::GetUserId`, `Auth::HasBoardAccess`
  and `checkBoardAccess` are not part of this model. `RouteStatus` and the
  set parameters stand for them. A fixed set cannot see a change
  `HasBoardAccess` might make during the same request.
- bcrypt is not modelled. `password_hash` is a function parameter and
  `password_verify` is a boolean.
- `BeanLoader` field validation is not modelled. Its success is a boolean, and
  the loaded bean takes the body's fields.
- `updateUser` ignores the loader's result, as the source does. A bean only
  partly loaded after a failure is not modelled.
- JSON encoding and decoding, the response envelope, alert texts, `logger` and
  `dbLogger` audit writes are not modelled. Handlers return an `Outcome` and,
  where the payload matters to the properties, the data. `updateUser`,
  `updateUserOptions` and `updateColumn` do not return their payloads.
- PHP loose typing is not modelled. Ids and board ids are `int`, and `===` on
  `default_board_id` is plain integer equality.
- Users.AddUser: the body always carries a username, so the model always runs
  `checkUsernameExists`. The body without a username is not modelled.
- Users.AddUserToBoard and Users.RemoveUserFromBoard: a board id with no row
  makes RedBeanPHP store an empty board bean, which creates a new board. The
  model links or unlinks the given id instead.
- Users.UpdateBoardAccess, Users.UpdateUser: a user id with no row is
  reachable from `updateUser` by an admin when neither the path id nor the
  body id has a row. Whenever a boardAccess list is sent, `updateBoardAccess`
  then stores the empty user bean it loaded, which inserts a second, empty
  user row next to the one `updateUser` stores. The model stores exactly one
  new user row and links the given id as it is.
- Columns.RemoveColumn: for id 0 the model reads the empty bean's board id
  as 0 and asks the access set about board 0. What `checkBoardAccess`
  answers for that bean is outside this model.
- Users.RemoveUser: only the user row is removed. `board_user` or `collapsed`
  rows that a foreign-key cascade might delete are not modelled.

=== FILE: columns.dfy ===
/**
  The Columns controller: four handlers over the column table, each a
  sequence of guards that either answers with the table unchanged or ends
  in exactly one insert, replace or delete.
*/
module Columns {
  import opened Tables

  /**
    getColumn: an id with no row gives an error alert (not 403); a column
    on a board the actor may not access gives 403; otherwise the column.
  */
  method GetColumn(db: Db, s: Session, id: int, boardAccess: set<int>) returns (r: Outcome, column: Option<Column>)
    requires db.Valid()
    ensures RouteStatus(db, s, StandardUser) != Ok ==> r == RouteStatus(db, s, StandardUser)
    ensures RouteStatus(db, s, StandardUser) == Ok && id !in db.columns ==> r == ErrorAlert
    ensures RouteStatus(db, s, StandardUser) == Ok && id in db.columns && db.columns[id].boardId !in boardAccess
            ==> r == Forbidden
    ensures r == Ok <==> RouteStatus(db, s, StandardUser) == Ok && id in db.columns
                         && db.columns[id].boardId in boardAccess
    ensures r == Ok ==> column == Some(db.columns[id])
    ensures r != Ok ==> column == None
  {
    r := RouteStatus(db, s, StandardUser);
    if r != Ok {
      return r, None;
    }
    if LoadedId(db.columns, id) == 0 {
      return ErrorAlert, None;
    }
    if db.columns[id].boardId !in boardAccess {
      return Forbidden, None;
    }
    return Ok, Some(db.columns[id]);
  }

  /**
    addColumn (board admins and above): a body the loader rejects (board id
    forced to 0) or naming no existing board is an error, a board the actor
    may not access is 403; otherwise the column is stored under a new id.
  */
  method AddColumn(db: Db, s: Session, body: Column, loaderOk: bool, boardAccess: set<int>)
    returns (r: Outcome, id: int)
    requires db.Valid()
    modifies db`columns
    ensures db.Valid()
    ensures old(db.ColumnsOnBoards()) ==> db.ColumnsOnBoards()
    ensures RouteStatus(db, s, BoardAdmin) != Ok ==> r == RouteStatus(db, s, BoardAdmin)
    ensures RouteStatus(db, s, BoardAdmin) == Ok && (!loaderOk || body.boardId !in db.boards) ==> r == ErrorAlert
    ensures (RouteStatus(db, s, BoardAdmin) == Ok && loaderOk && body.boardId in db.boards
             && body.boardId !in boardAccess) ==> r == Forbidden
    ensures r == Ok <==> RouteStatus(db, s, BoardAdmin) == Ok && loaderOk && body.boardId in db.boards
                         && body.boardId in boardAccess
    ensures r != Ok ==> db.columns == old(db.columns)
    ensures r == Ok ==> id > 0 && id !in old(db.columns) && db.columns == old(db.columns)[id := body]
    ensures db.columns != old(db.columns) ==>
              s.actorId in db.users && db.users[s.actorId].securityLevel in {Admin, BoardAdmin}
  {
    r := RouteStatus(db, s, BoardAdmin);
    if r != Ok {
      return r, 0;
    }
    var boardId := if loaderOk then body.boardId else 0;
    if boardId !in db.boards {
      return ErrorAlert, 0;
    }
    if boardId !in boardAccess {
      return Forbidden, 0;
    }
    id := NextId(db.columns.Keys);
    db.columns := db.columns[id := body];
    r := Ok;
  }

  /**
    updateColumn (board admins and above): a missing id argument, an id
    with no row or a body the loader rejects (its id becomes 0 and differs)
    is an error; access is checked on the stored column's board, not the
    body's; otherwise the body replaces the row under the same id.
  */
  method UpdateColumn(db: Db, s: Session, pathId: Option<int>, body: Column, loaderOk: bool, boardAccess: set<int>)
    returns (r: Outcome)
    requires db.Valid()
    modifies db`columns
    ensures db.Valid()
    ensures RouteStatus(db, s, BoardAdmin) != Ok ==> r == RouteStatus(db, s, BoardAdmin)
    ensures RouteStatus(db, s, BoardAdmin) == Ok && (pathId.None? || pathId.value !in old(db.columns) || !loaderOk)
            ==> r == ErrorAlert
    ensures (RouteStatus(db, s, BoardAdmin) == Ok && pathId.Some? && pathId.value in old(db.columns) && loaderOk
             && old(db.columns)[pathId.value].boardId !in boardAccess) ==> r == Forbidden
    ensures r == Ok <==> RouteStatus(db, s, BoardAdmin) == Ok && pathId.Some? && pathId.value in old(db.columns)
                         && loaderOk && old(db.columns)[pathId.value].boardId in boardAccess
    ensures r != Ok ==> db.columns == old(db.columns)
    ensures r == Ok ==> db.columns == old(db.columns)[pathId.value := body]
    ensures r == Ok && body.boardId in db.boards ==> old(db.ColumnsOnBoards()) ==> db.ColumnsOnBoards()
    ensures db.columns != old(db.columns) ==>
              s.actorId in db.users && db.users[s.actorId].securityLevel in {Admin, BoardAdmin}
  {
    r := RouteStatus(db, s, BoardAdmin);
    if r != Ok {
      return;
    }
    if pathId.None? {
      return ErrorAlert;
    }
    var columnId := LoadedId(db.columns, pathId.value);
    var updateId := if loaderOk then columnId else 0;
    if columnId == 0 || columnId != updateId {
      return ErrorAlert;
    }
    if db.columns[columnId].boardId !in boardAccess {
      return Forbidden;
    }
    db.columns := db.columns[updateId := body];
    r := Ok;
  }

  /**
    removeColumn (board admins and above): an id that does not load as
    itself is an error, a board the actor may not access is 403; otherwise
    the row is trashed. Id 0 loads as the empty bean (board id 0) and, with
    access to board 0, "succeeds" without removing anything.
  */
  method RemoveColumn(db: Db, s: Session, id: int, boardAccess: set<int>) returns (r: Outcome)
    requires db.Valid()
    modifies db`columns
    ensures db.Valid()
    ensures old(db.ColumnsOnBoards()) ==> db.ColumnsOnBoards()
    ensures RouteStatus(db, s, BoardAdmin) != Ok ==> r == RouteStatus(db, s, BoardAdmin)
    ensures RouteStatus(db, s, BoardAdmin) == Ok && id != 0 && id !in old(db.columns) ==> r == ErrorAlert
    ensures (RouteStatus(db, s, BoardAdmin) == Ok && id in old(db.columns)
             && old(db.columns)[id].boardId !in boardAccess) ==> r == Forbidden
    ensures RouteStatus(db, s, BoardAdmin) == Ok && id == 0 && 0 !in boardAccess ==> r == Forbidden
    ensures r == Ok <==> RouteStatus(db, s, BoardAdmin) == Ok
                         && (if id in old(db.columns) then old(db.columns)[id].boardId in boardAccess
                             else id == 0 && 0 in boardAccess)
    ensures r != Ok ==> db.columns == old(db.columns)
    ensures r == Ok ==> db.columns == old(db.columns) - {id}
    ensures forall k :: k != id && k in old(db.columns) ==> k in db.columns && db.columns[k] == old(db.columns)[k]
    ensures db.columns != old(db.columns) ==>
              s.actorId in db.users && db.users[s.actorId].securityLevel in {Admin, BoardAdmin}
  {
    r := RouteStatus(db, s, BoardAdmin);
    if r != Ok {
      return;
    }
    if LoadedId(db.columns, id) != id {
      return ErrorAlert;
    }
    var boardId := if id in db.columns then db.columns[id].boardId else 0;
    if boardId !in boardAccess {
      return Forbidden;
    }
    db.columns := db.columns - {id};
    r := Ok;
  }
}

=== FILE: tables.dfy ===
/**
  The database the Users and Columns controllers work on, with the ORM
  abstracted away: each table is a map from row id to record (or a set of
  link rows), and R::load / R::store become lookups and map updates.
  Also the request's session and the role check that every handler runs
  first (BaseController::secureRoute is not part of this model; its
  assumed behaviour is stated by RouteStatus).
*/
module Tables {

  datatype Option<T> = None | Some(value: T)

  /** SecurityLevel: ADMIN above BOARD_ADMIN above USER. */
  datatype SecurityLevel = Admin | BoardAdmin | StandardUser

  /** The numeric level stored with a user: a smaller number is more privilege. */
  function Rank(level: SecurityLevel): nat
  {
    match level
    case Admin => 1
    case BoardAdmin => 2
    case StandardUser => 3
  }

  /**
    A row of the user table. The secrets are optional because a bean that
    cleanUser has been applied to, or an empty bean, carries none.
  */
  datatype User = User(
    username: string,
    passwordHash: Option<string>,
    activeToken: Option<string>,
    securityLevel: SecurityLevel,
    defaultBoardId: int,
    userOptionId: int)

  /** A row of the useroption table. */
  datatype UserOption = UserOption(
    newTasksAtBottom: bool,
    showAnimations: bool,
    showAssignee: bool,
    multipleTasksPerRow: bool,
    language: string)

  /** A row of the column table. */
  datatype Column = Column(name: string, boardId: int)

  /**
    What a handler answers: success, an error alert (HTTP 200 with
    success = false), 403, or the status of a token that did not validate.
  */
  datatype Outcome = Ok | ErrorAlert | Forbidden | Unauthorized

  /** The authenticated request: whether its token validated, and Auth::GetUserId. */
  datatype Session = Session(tokenValid: bool, actorId: int)

  /** R::load: the id of the bean loaded for `id`; 0 when the table has no such row. */
  function LoadedId<V>(table: map<int, V>, id: int): int
  {
    if id in table then id else 0
  }

  /** The boards a user is linked to by board_user rows (getBoardIdsByAccess's query). */
  function HeldBoards(boardUser: set<(int, int)>, userId: int): (r: set<int>)
    ensures forall b :: b in r <==> (b, userId) in boardUser
  {
    set p | p in boardUser && p.1 == userId :: p.0
  }

  /** A set that is not empty has a member (what `:|` over a set needs). */
  lemma NonEmptyHasMember(s: set<int>)
    requires s != {}
    ensures exists x :: x in s
  {
    if forall x :: x !in s {
      assert false;
    }
  }

  /**
    The id R::store gives a fresh bean: auto-increment, modelled as one more
    than the largest id the table holds.
  */
  method NextId(ids: set<int>) returns (id: int)
    ensures id > 0 && id !in ids
    ensures forall k :: k in ids ==> k < id
  {
    id := 1;
    var rest := ids;
    while rest != {}
      invariant rest <= ids
      invariant id > 0
      invariant forall k :: k in ids && k !in rest ==> k < id
    {
      NonEmptyHasMember(rest);
      var k :| k in rest;
      if k >= id {
        id := k + 1;
      }
      rest := rest - {k};
    }
  }

  class Db {
    var users: map<int, User>
    var userOptions: map<int, UserOption>
    var columns: map<int, Column>
    var boards: set<int>
    /** The board_user link table as (board_id, user_id): every board's shared-user list. */
    var boardUser: set<(int, int)>
    /** The collapsed table as (user_id, column_id). */
    var collapsed: set<(int, int)>

    /** Row ids are auto-increment and positive, so the 0 of an empty bean names no row. */
    predicate Valid()
      reads this
    {
      && (forall id :: id in users ==> id > 0)
      && (forall id :: id in userOptions ==> id > 0)
      && (forall id :: id in columns ==> id > 0)
      && (forall id :: id in boards ==> id > 0)
    }

    /** The invariant a column's board must exist. */
    predicate ColumnsOnBoards()
      reads this
    {
      forall id :: id in columns ==> columns[id].boardId in boards
    }

    /**
      `sharedUserList` of the bean R::load gives for `boardId`: the existing
      users linked to it, and nothing when no such board exists.
    */
    function SharedUsers(boardId: int): (r: set<int>)
      reads this
      ensures forall u :: u in r <==> boardId in boards && u in users && (boardId, u) in boardUser
    {
      if boardId in boards then set p | p in boardUser && p.0 == boardId && p.1 in users :: p.1 else {}
    }

    /** The union of the shared-user lists of `boardIds`. */
    function UsersSharing(boardIds: set<int>): set<int>
      reads this
    {
      set p | p in boardUser && p.0 in boardIds && p.0 in boards && p.1 in users :: p.1
    }

    /**
      The users someone may see: the union of the shared-user lists of the
      boards that board_user rows link them to.
    */
    function VisibleUserIds(userId: int): (r: set<int>)
      reads this
      ensures r <= users.Keys
    {
      UsersSharing(HeldBoards(boardUser, userId))
    }

    /** VisibleUserIds is exactly that union, read board by board. */
    lemma VisibleIsUnionOfShared(userId: int)
      ensures forall b, v :: (b, userId) in boardUser && v in SharedUsers(b) ==> v in VisibleUserIds(userId)
      ensures forall v :: v in VisibleUserIds(userId) ==>
                exists b :: (b, userId) in boardUser && v in SharedUsers(b)
    {
      forall v | v in VisibleUserIds(userId)
        ensures exists b :: (b, userId) in boardUser && v in SharedUsers(b)
      {
        var p :| p in boardUser && p.0 in HeldBoards(boardUser, userId) && p.0 in boards && p.1 in users && p.1 == v;
        assert (p.0, userId) in boardUser && v in SharedUsers(p.0);
      }
    }
  }

  /**
    secureRoute(request, response, level): the token must validate and the
    actor's stored level must be at least `required`.
  */
  function RouteStatus(db: Db, s: Session, required: SecurityLevel): (r: Outcome)
    reads db
    ensures r == Ok <==> s.tokenValid && s.actorId in db.users
                         && Rank(db.users[s.actorId].securityLevel) <= Rank(required)
    ensures r != Ok ==> r == Unauthorized || r == Forbidden
    ensures !s.tokenValid ==> r == Unauthorized
  {
    if !s.tokenValid then Unauthorized
    else if s.actorId !in db.users then Forbidden
    else if Rank(db.users[s.actorId].securityLevel) > Rank(required) then Forbidden
    else Ok
  }
}

=== FILE: users.dfy ===
/**
  The Users controller: listing and reading users, adding, updating and
  removing them, their options, their collapsed columns, and the board
  membership (board_user rows) that decides who may see whom.
*/
module Users {
  import opened Tables

  /** A user as the API returns it: the record without its secrets, plus board_access. */
  datatype UserView = UserView(id: int, record: User, boardAccess: set<int>)

  /** The decoded JSON body of addUser and updateUser. */
  datatype UserBody = UserBody(
    id: Option<int>,                  // property_exists($data, 'id')
    record: User,                     // the fields BeanLoader::LoadUser copies onto the bean
    sentDefaultBoard: bool,           // isset($data->default_board_id); its value is record.defaultBoardId
    boardAccess: Option<seq<int>>,
    password: Option<string>,
    passwordVerify: Option<string>,
    newPassword: Option<string>,
    oldPassword: Option<string>)

  /** The options addUser stores for every new user. */
  const DefaultOptions := UserOption(true, true, true, false, "en")

  /** `(int)$actor->security_level === SecurityLevel::ADMIN` for the bean R::load gives. */
  predicate IsAdmin(db: Db, id: int)
    reads db
  {
    id in db.users && db.users[id].securityLevel == Admin
  }

  /** checkUsernameExists: some stored user already has this name. */
  function UsernameTaken(users: map<int, User>, name: string): (taken: bool)
    ensures taken <==> exists id :: id in users && users[id].username == name
  {
    name in (set id | id in users :: users[id].username)
  }

  /**
    checkUserAccess(actor, user) with both beans loaded by id: a user may
    change themselves, an admin may change anyone.
  */
  function CheckUserAccess(db: Db, actorId: int, userId: int): (allowed: bool)
    reads db
    requires db.Valid()
    ensures actorId in db.users ==> (allowed <==> actorId == userId || IsAdmin(db, actorId))
    ensures actorId !in db.users ==> (allowed <==> userId !in db.users)
  {
    var actorLoaded := LoadedId(db.users, actorId);
    var userLoaded := LoadedId(db.users, userId);
    if actorLoaded != userLoaded then IsAdmin(db, actorId) else true
  }

  /**
    cleanUser: the stored user with password_hash and active_token unset,
    and board_access set to the existing boards whose board_user rows list
    the user (setBoardAccess).
  */
  function CleanUser(db: Db, id: int): (v: UserView)
    reads db
    requires id in db.users
    ensures v.id == id && v.record.passwordHash == None && v.record.activeToken == None
    ensures v.record.(passwordHash := db.users[id].passwordHash, activeToken := db.users[id].activeToken)
            == db.users[id]
    ensures forall b :: b in v.boardAccess <==> b in db.boards && (b, id) in db.boardUser
  {
    UserView(id, db.users[id].(passwordHash := None, activeToken := None),
             set p | p in db.boardUser && p.1 == id && p.0 in db.boards :: p.0)
  }

  // ---------------------------------------------------------------------
  // Board membership: updateBoardAccess, addUserToBoard, removeUserFromBoard

  /** The links the first loop of updateBoardAccess adds for the requested ids seen so far. */
  function Additions(held: set<int>, userId: int, requested: seq<int>, hasBoardAccess: set<int>): set<(int, int)>
  {
    set b | b in requested && b !in held && b > 0 && b !in hasBoardAccess :: (b, userId)
  }

  /** The links the second loop removes among the held boards it has visited. */
  function Removals(userId: int, requested: seq<int>, visited: set<int>): set<(int, int)>
  {
    set b | b in visited && b !in requested && b > 0 :: (b, userId)
  }

  /** `count(array_diff($userData->boardAccess, $boardIds))` is not zero. */
  predicate RequestsUnheld(held: set<int>, requested: seq<int>)
  {
    exists b :: b in requested && b !in held
  }

  /**
    The board_user table after updateBoardAccess with a boardAccess list:
    requested boards the user is not on (and is not already allowed into)
    are added; the user's other boards are dropped, but only when the
    request names some board the user is not on.
  */
  function BoardAccessAfter(boardUser: set<(int, int)>, userId: int, requested: seq<int>,
                            hasBoardAccess: set<int>): (r: set<(int, int)>)
    // other users' links are untouched
    ensures forall p: (int, int) :: p.1 != userId ==> (p in r <==> p in boardUser)
    // ids <= 0 are never added nor removed
    ensures forall b :: b <= 0 ==> ((b, userId) in r <==> (b, userId) in boardUser)
    // every requested positive board not held and not already accessible is added
    ensures forall b :: b in requested && b > 0 && (b, userId) !in boardUser && b !in hasBoardAccess
                        ==> (b, userId) in r
    // nothing else is added
    ensures forall b :: (b, userId) in r && (b, userId) !in boardUser
                        ==> b in requested && b > 0 && b !in hasBoardAccess
    // held boards that are requested stay
    ensures forall b :: b in requested && (b, userId) in boardUser ==> (b, userId) in r
    // a request that is a subset of the held boards changes nothing
    ensures (forall b :: b in requested ==> (b, userId) in boardUser) ==> r == boardUser
    // otherwise exactly the held positive boards absent from the request are dropped
    ensures (exists b :: b in requested && (b, userId) !in boardUser) ==>
              forall b :: b > 0 && (b, userId) in boardUser ==> ((b, userId) in r <==> b in requested)
  {
    var held := HeldBoards(boardUser, userId);
    var grown := boardUser + Additions(held, userId, requested, hasBoardAccess);
    if RequestsUnheld(held, requested) then grown - Removals(userId, requested, held) else grown
  }

  /** addUserToBoard: link the user unless the id is not positive or Auth::HasBoardAccess says yes. */
  method AddUserToBoard(db: Db, boardId: int, userId: int, hasBoardAccess: set<int>)
    modifies db`boardUser
    ensures db.boardUser == if boardId > 0 && boardId !in hasBoardAccess
                            then old(db.boardUser) + {(boardId, userId)} else old(db.boardUser)
  {
    if boardId > 0 && boardId !in hasBoardAccess {
      db.boardUser := db.boardUser + {(boardId, userId)};
    }
  }

  /** removeUserFromBoard: unlink the user from a board with a positive id. */
  method RemoveUserFromBoard(db: Db, boardId: int, userId: int)
    modifies db`boardUser
    ensures db.boardUser == if boardId > 0 then old(db.boardUser) - {(boardId, userId)} else old(db.boardUser)
  {
    if boardId > 0 {
      db.boardUser := db.boardUser - {(boardId, userId)};
    }
  }

  /**
    updateBoardAccess: nothing happens without a boardAccess list; with one,
    the table becomes BoardAccessAfter of the old one.
  */
  method UpdateBoardAccess(db: Db, userId: int, boardAccess: Option<seq<int>>, hasBoardAccess: set<int>)
    modifies db`boardUser
    ensures boardAccess.None? ==> db.boardUser == old(db.boardUser)
    ensures boardAccess.Some? ==>
              db.boardUser == BoardAccessAfter(old(db.boardUser), userId, boardAccess.value, hasBoardAccess)
  {
    var boardIds := HeldBoards(db.boardUser, userId);
    if boardAccess.Some? {
      var requested := boardAccess.value;
      var i := 0;
      while i < |requested|
        invariant 0 <= i <= |requested|
        invariant db.boardUser == old(db.boardUser) + Additions(boardIds, userId, requested[..i], hasBoardAccess)
      {
        assert requested[..i + 1] == requested[..i] + [requested[i]];
        if requested[i] !in boardIds {
          AddUserToBoard(db, requested[i], userId, hasBoardAccess);
        }
        i := i + 1;
      }
      assert requested[..i] == requested;
      ghost var grown := db.boardUser;
      if RequestsUnheld(boardIds, requested) {
        var rest := boardIds;
        while rest != {}
          invariant rest <= boardIds
          invariant db.boardUser == grown - Removals(userId, requested, boardIds - rest)
        {
          NonEmptyHasMember(rest);
          var removeId :| removeId in rest;
          if removeId !in requested {
            RemoveUserFromBoard(db, removeId, userId);
          }
          rest := rest - {removeId};
        }
      }
    }
  }

  /**
    updateDefaultBoardId: a changed, non-zero default board is appended to
    the request's boardAccess list when the list is there and lacks it.
  */
  function UpdateDefaultBoardId(boardAccess: Option<seq<int>>, userDefault: Option<int>, newDefault: int)
    : (r: Option<seq<int>>)
    ensures r.None? <==> boardAccess.None?
    ensures userDefault == Some(newDefault) || newDefault == 0 ==> r == boardAccess
    ensures boardAccess.Some? && userDefault != Some(newDefault) && newDefault != 0 ==> newDefault in r.value
    ensures boardAccess.Some? ==> r.value == boardAccess.value || r.value == boardAccess.value + [newDefault]
    ensures boardAccess.Some? && newDefault in boardAccess.value ==> r == boardAccess
  {
    if userDefault == Some(newDefault) || newDefault == 0 then boardAccess
    else if boardAccess.Some? && newDefault !in boardAccess.value then Some(boardAccess.value + [newDefault])
    else boardAccess
  }

  // ---------------------------------------------------------------------
  // Visibility: getUserIdsByBoardAccess, getAllUsersCleaned

  /**
    getUserIdsByBoardAccess: the users on the shared lists of the boards
    the user is on, each once.
  */
  method GetUserIdsByBoardAccess(db: Db, userId: int) returns (ids: seq<int>)
    ensures forall i, j :: 0 <= i < j < |ids| ==> ids[i] != ids[j]
    ensures forall v :: v in ids <==> v in db.VisibleUserIds(userId)
  {
    ids := [];
    var boardIds := HeldBoards(db.boardUser, userId);
    var rest := boardIds;
    while rest != {}
      invariant rest <= boardIds
      invariant forall i, j :: 0 <= i < j < |ids| ==> ids[i] != ids[j]
      invariant forall v :: v in ids <==> v in db.UsersSharing(boardIds - rest)
    {
      NonEmptyHasMember(rest);
      var id :| id in rest;
      var shared := db.SharedUsers(id);
      var todo := shared;
      while todo != {}
        invariant todo <= shared
        invariant forall i, j :: 0 <= i < j < |ids| ==> ids[i] != ids[j]
        invariant forall v :: v in ids <==> v in db.UsersSharing(boardIds - rest) || v in shared - todo
      {
        NonEmptyHasMember(todo);
        var u :| u in todo;
        if u !in ids {
          ids := ids + [u];
        }
        todo := todo - {u};
      }
      SharingOneMore(db, boardIds - rest, id);
      rest := rest - {id};
    }
    assert boardIds - rest == boardIds;
  }

  /** Visiting one more board adds exactly that board's shared list. */
  lemma SharingOneMore(db: Db, done: set<int>, boardId: int)
    ensures db.UsersSharing(done + {boardId}) == db.UsersSharing(done) + db.SharedUsers(boardId)
  {
  }

  /** The ids of a list of users. */
  function ViewIds(views: seq<UserView>): set<int>
  {
    if views == [] then {} else ViewIds(views[..|views| - 1]) + {views[|views| - 1].id}
  }

  /**
    getAllUsersCleaned: every user, cleaned, for an admin actor; otherwise
    the users the actor may see, or the actor alone when that set is empty.
  */
  method GetAllUsersCleaned(db: Db, actorId: int) returns (views: seq<UserView>)
    ensures forall i :: 0 <= i < |views| ==> views[i].id in db.users && views[i] == CleanUser(db, views[i].id)
    ensures forall i, j :: 0 <= i < j < |views| ==> views[i].id != views[j].id
    ensures IsAdmin(db, actorId) ==> ViewIds(views) == db.users.Keys
    ensures !IsAdmin(db, actorId) && db.VisibleUserIds(actorId) != {} ==>
              ViewIds(views) == db.VisibleUserIds(actorId)
    ensures !IsAdmin(db, actorId) && db.VisibleUserIds(actorId) == {} ==>
              ViewIds(views) == db.users.Keys * {actorId}
  {
    var visible := GetUserIdsByBoardAccess(db, actorId);
    ghost var seen := db.VisibleUserIds(actorId);
    assert forall v :: v in seen <==> v in visible;
    if |visible| == 0 {
      assert forall v :: v !in seen;
      assert seen == {};
      visible := [actorId];
    } else {
      assert visible[0] in seen;
    }
    var isAdmin := IsAdmin(db, actorId);
    ghost var shown := if isAdmin then db.users.Keys
                       else if seen == {} then db.users.Keys * {actorId}
                       else seen;
    assert forall id :: id in db.users ==> (id in shown <==> isAdmin || id in visible);
    views := [];
    var rest := db.users.Keys;
    while rest != {}
      invariant rest <= db.users.Keys
      invariant forall i :: 0 <= i < |views| ==>
                  views[i].id in db.users && views[i].id !in rest && views[i] == CleanUser(db, views[i].id)
      invariant forall i, j :: 0 <= i < j < |views| ==> views[i].id != views[j].id
      invariant ViewIds(views) == (db.users.Keys - rest) * shown
    {
      NonEmptyHasMember(rest);
      var id :| id in rest;
      if id in visible || isAdmin {
        ghost var before := views;
        views := views + [CleanUser(db, id)];
        assert views[..|views| - 1] == before;
      }
      rest := rest - {id};
    }
  }

  // ---------------------------------------------------------------------
  // Collapsed columns

  /** One toggle of a (user, column) row: removed when present, inserted when absent. */
  function Toggled(rows: set<(int, int)>, row: (int, int)): (r: set<(int, int)>)
    ensures row in r <==> row !in rows
    ensures forall q :: q != row ==> (q in r <==> q in rows)
  {
    if row in rows then rows - {row} else rows + {row}
  }

  /** Toggling the same row twice restores the table. */
  lemma ToggleTwiceRestores(rows: set<(int, int)>, row: (int, int))
    ensures Toggled(Toggled(rows, row), row) == rows
  {
  }

  /** The collapsed rows of one user (R::find('collapsed', ' user_id = ? ')). */
  function RowsOf(rows: set<(int, int)>, userId: int): set<(int, int)>
  {
    set p | p in rows && p.0 == userId
  }

  // ---------------------------------------------------------------------
  // Handlers

  /** getAllUsers: the cleaned users the actor may see. */
  method GetAllUsers(db: Db, s: Session) returns (r: Outcome, views: seq<UserView>)
    ensures r == RouteStatus(db, s, StandardUser)
    ensures r != Ok ==> views == []
    ensures r == Ok && IsAdmin(db, s.actorId) ==> ViewIds(views) == db.users.Keys
    ensures r == Ok && !IsAdmin(db, s.actorId) && db.VisibleUserIds(s.actorId) != {} ==>
              ViewIds(views) == db.VisibleUserIds(s.actorId)
    ensures r == Ok && !IsAdmin(db, s.actorId) && db.VisibleUserIds(s.actorId) == {} ==>
              ViewIds(views) == {s.actorId}
    ensures r == Ok ==> forall i :: 0 <= i < |views| ==> views[i].id in db.users && views[i] == CleanUser(db, views[i].id)
    ensures r == Ok ==> forall i, j :: 0 <= i < j < |views| ==> views[i].id != views[j].id
  {
    r := RouteStatus(db, s, StandardUser);
    if r != Ok {
      return r, [];
    }
    views := GetAllUsersCleaned(db, s.actorId);
  }

  /**
    getUser: an error alert for an id with no row, 403 for a user the actor
    does not share a board with (no "see yourself" fallback here).
  */
  method GetUser(db: Db, s: Session, id: int) returns (r: Outcome, view: Option<UserView>)
    requires db.Valid()
    ensures RouteStatus(db, s, StandardUser) != Ok ==> r == RouteStatus(db, s, StandardUser)
    ensures RouteStatus(db, s, StandardUser) == Ok && id !in db.users ==> r == ErrorAlert
    ensures RouteStatus(db, s, StandardUser) == Ok && id in db.users && id !in db.VisibleUserIds(s.actorId)
            ==> r == Forbidden
    ensures r == Ok <==> RouteStatus(db, s, StandardUser) == Ok && id in db.VisibleUserIds(s.actorId)
    ensures r == Ok ==> id in db.users && view == Some(CleanUser(db, id))
    ensures r != Ok ==> view == None
  {
    r := RouteStatus(db, s, StandardUser);
    if r != Ok {
      return r, None;
    }
    var userIds := GetUserIdsByBoardAccess(db, s.actorId);
    if LoadedId(db.users, id) == 0 {
      return ErrorAlert, None;
    }
    if id !in userIds {
      return Forbidden, None;
    }
    return Ok, Some(CleanUser(db, id));
  }

  /** The hash updateUser stores: the old one unless a password change was asked for. */
  function UpdatedHash(stored: Option<string>, body: UserBody, hashOf: string -> string): Option<string>
  {
    if body.password.Some? && body.password.value != "" then Some(hashOf(body.password.value))
    else if body.newPassword.Some? && body.oldPassword.Some? then Some(hashOf(body.newPassword.value))
    else stored
  }

  /** The stored password hash of the bean R::load gives for `id` (none for an empty bean). */
  function StoredHash(users: map<int, User>, id: int): Option<string>
  {
    if id in users then users[id].passwordHash else None
  }

  /** The stored active token of the bean R::load gives for `id`. */
  function StoredToken(users: map<int, User>, id: int): Option<string>
  {
    if id in users then users[id].activeToken else None
  }

  /** The default board of the bean R::load gives for `id` (null for an empty bean). */
  function StoredDefault(users: map<int, User>, id: int): Option<int>
  {
    if id in users then Some(users[id].defaultBoardId) else None
  }

  /**
    updateUser: guards in order (role, body id, checkUserAccess, old
    password, loaded ids equal, new username free), then the board
    membership update and one store of the record with the stored secrets
    carried over.
  */
  method UpdateUser(db: Db, s: Session, pathId: int, body: UserBody, oldPasswordVerifies: bool,
                    hashOf: string -> string, hasBoardAccess: set<int>) returns (r: Outcome)
    requires db.Valid()
    modifies db`users, db`boardUser
    ensures db.Valid()
    ensures r != Ok ==> db.users == old(db.users) && db.boardUser == old(db.boardUser)
    ensures old(RouteStatus(db, s, StandardUser)) != Ok ==> r == old(RouteStatus(db, s, StandardUser))
    ensures old(RouteStatus(db, s, StandardUser)) == Ok && body.id.None? ==> r == ErrorAlert
    ensures (old(RouteStatus(db, s, StandardUser)) == Ok && body.id.Some?
             && !old(CheckUserAccess(db, s.actorId, pathId))) ==> r == Forbidden
    ensures (old(RouteStatus(db, s, StandardUser)) == Ok && body.id.Some? && old(CheckUserAccess(db, s.actorId, pathId))
             && body.newPassword.Some? && body.oldPassword.Some? && !oldPasswordVerifies) ==> r == ErrorAlert
    ensures (old(RouteStatus(db, s, StandardUser)) == Ok && body.id.Some? && old(CheckUserAccess(db, s.actorId, pathId))
             && (body.newPassword.Some? && body.oldPassword.Some? ==> oldPasswordVerifies)
             && LoadedId(old(db.users), pathId) != LoadedId(old(db.users), body.id.value)) ==> r == ErrorAlert
    // renaming (or naming a user with no row) to a name some stored user already has
    ensures (old(RouteStatus(db, s, StandardUser)) == Ok && body.id.Some? && old(CheckUserAccess(db, s.actorId, pathId))
             && (body.newPassword.Some? && body.oldPassword.Some? ==> oldPasswordVerifies)
             && LoadedId(old(db.users), pathId) == LoadedId(old(db.users), body.id.value)
             && (pathId !in old(db.users) || old(db.users)[pathId].username != body.record.username)
             && UsernameTaken(old(db.users), body.record.username)) ==> r == ErrorAlert
    ensures r == Ok <==> (old(RouteStatus(db, s, StandardUser)) == Ok && body.id.Some?
                          && old(CheckUserAccess(db, s.actorId, pathId))
                          && (body.newPassword.Some? && body.oldPassword.Some? ==> oldPasswordVerifies)
                          && LoadedId(old(db.users), pathId) == LoadedId(old(db.users), body.id.value)
                          && !((pathId !in old(db.users) || old(db.users)[pathId].username != body.record.username)
                               && UsernameTaken(old(db.users), body.record.username)))
    // the record stored: the body's fields, the stored token, the hash kept or replaced by a requested change
    ensures r == Ok && pathId in old(db.users) ==>
              db.users == old(db.users)[pathId := body.record.(
                passwordHash := UpdatedHash(old(db.users)[pathId].passwordHash, body, hashOf),
                activeToken := old(db.users)[pathId].activeToken)]
    ensures r == Ok && pathId !in old(db.users) ==>
              exists id :: id > 0 && id !in old(db.users) && db.users == old(db.users)[id := body.record.(
                passwordHash := UpdatedHash(None, body, hashOf), activeToken := None)]
    // spelled out on purpose from the stored record above: a user update never changes the active token
    ensures r == Ok && pathId in old(db.users) ==> db.users[pathId].activeToken == old(db.users)[pathId].activeToken
    ensures r == Ok && pathId in old(db.users) && db.users[pathId].passwordHash != old(db.users)[pathId].passwordHash
            ==> (body.newPassword.Some? && body.oldPassword.Some? && oldPasswordVerifies)
                || (body.password.Some? && body.password.value != "")
    ensures r == Ok ==>
              (var access := UpdateDefaultBoardId(body.boardAccess, StoredDefault(old(db.users), pathId),
                                                  body.record.defaultBoardId);
               db.boardUser == if access.None? then old(db.boardUser)
                               else BoardAccessAfter(old(db.boardUser), body.id.value, access.value, hasBoardAccess))
  {
    r := RouteStatus(db, s, StandardUser);
    if r != Ok {
      return;
    }
    if body.id.None? {
      return ErrorAlert;
    }
    var userId := LoadedId(db.users, pathId);
    var updateId := LoadedId(db.users, body.id.value);
    if !CheckUserAccess(db, s.actorId, pathId) {
      return Forbidden;
    }
    var hash := StoredHash(db.users, pathId);
    if body.newPassword.Some? && body.oldPassword.Some? {
      if !oldPasswordVerifies {
        return ErrorAlert;
      }
      hash := Some(hashOf(body.newPassword.value));
    }
    var token := StoredToken(db.users, pathId);
    if body.password.Some? && body.password.value != "" {
      hash := Some(hashOf(body.password.value));
    }
    var update := body.record.(passwordHash := hash, activeToken := token);
    if userId != updateId {
      return ErrorAlert;
    }
    if (pathId !in db.users || db.users[pathId].username != update.username)
       && UsernameTaken(db.users, update.username) {
      return ErrorAlert;
    }
    var access := UpdateDefaultBoardId(body.boardAccess, StoredDefault(db.users, pathId), update.defaultBoardId);
    UpdateBoardAccess(db, body.id.value, access, hasBoardAccess);
    if updateId == 0 {
      var id := NextId(db.users.Keys);
      db.users := db.users[id := update];
    } else {
      db.users := db.users[updateId := update];
    }
    r := Ok;
  }

  /**
    updateUserOptions: only the user themselves; the body's option record
    must load and be the user's own, then it is stored.
  */
  method UpdateUserOptions(db: Db, s: Session, pathId: int, bodyId: int, options: UserOption, loaderOk: bool)
    returns (r: Outcome)
    requires db.Valid()
    modifies db`userOptions
    ensures db.Valid()
    ensures r != Ok ==> db.userOptions == old(db.userOptions)
    ensures RouteStatus(db, s, StandardUser) != Ok ==> r == RouteStatus(db, s, StandardUser)
    ensures RouteStatus(db, s, StandardUser) == Ok && s.actorId != pathId ==> r == Forbidden
    ensures RouteStatus(db, s, StandardUser) == Ok && s.actorId == pathId && !loaderOk ==> r == ErrorAlert
    ensures (RouteStatus(db, s, StandardUser) == Ok && s.actorId == pathId && loaderOk
             && LoadedId(old(db.userOptions), db.users[pathId].userOptionId) != LoadedId(old(db.userOptions), bodyId))
            ==> r == ErrorAlert
    ensures r == Ok <==> (RouteStatus(db, s, StandardUser) == Ok && s.actorId == pathId && loaderOk
                          && LoadedId(old(db.userOptions), db.users[pathId].userOptionId)
                             == LoadedId(old(db.userOptions), bodyId))
    ensures r == Ok && bodyId in old(db.userOptions) ==> db.userOptions == old(db.userOptions)[bodyId := options]
    ensures r == Ok && bodyId !in old(db.userOptions) ==>
              exists id :: id > 0 && id !in old(db.userOptions) && db.userOptions == old(db.userOptions)[id := options]
  {
    r := RouteStatus(db, s, StandardUser);
    if r != Ok {
      return;
    }
    if LoadedId(db.users, s.actorId) != LoadedId(db.users, pathId) {
      return Forbidden;
    }
    var optsId := LoadedId(db.userOptions, db.users[pathId].userOptionId);
    var updateId := if loaderOk then LoadedId(db.userOptions, bodyId) else -1;
    if optsId != updateId {
      return ErrorAlert;
    }
    if updateId == 0 {
      var id := NextId(db.userOptions.Keys);
      db.userOptions := db.userOptions[id := options];
    } else {
      db.userOptions := db.userOptions[updateId := options];
    }
    r := Ok;
  }

  /**
    toggleCollapsed: only the user themselves; flips the (user, column) row
    and answers with all of that user's rows.
  */
  method ToggleCollapsed(db: Db, s: Session, pathId: int, columnId: int)
    returns (r: Outcome, rows: set<(int, int)>)
    requires db.Valid()
    modifies db`collapsed
    ensures db.Valid()
    ensures RouteStatus(db, s, StandardUser) != Ok ==> r == RouteStatus(db, s, StandardUser)
    ensures RouteStatus(db, s, StandardUser) == Ok && s.actorId != pathId ==> r == Forbidden
    ensures r == Ok <==> RouteStatus(db, s, StandardUser) == Ok && s.actorId == pathId
    ensures r != Ok ==> db.collapsed == old(db.collapsed) && rows == {}
    ensures r == Ok ==> db.collapsed == Toggled(old(db.collapsed), (pathId, columnId))
    ensures r == Ok ==> forall p: (int, int) :: p.0 != pathId ==> (p in db.collapsed <==> p in old(db.collapsed))
    ensures r == Ok ==> rows == RowsOf(db.collapsed, pathId)
  {
    r := RouteStatus(db, s, StandardUser);
    if r != Ok {
      return r, {};
    }
    if LoadedId(db.users, s.actorId) != LoadedId(db.users, pathId) {
      return Forbidden, {};
    }
    var row := (pathId, columnId);
    var makeNew := true;
    if row in db.collapsed {
      db.collapsed := db.collapsed - {row};
      makeNew := false;
    }
    if makeNew {
      db.collapsed := db.collapsed + {row};
    }
    rows := RowsOf(db.collapsed, pathId);
    r := Ok;
  }

  /**
    addUser (admins only): a free username and a body the loader accepts
    give a new option row with the defaults and a new user row linked to
    it; the default board, when sent, joins the requested boards.
  */
  method AddUser(db: Db, s: Session, body: UserBody, loaderOk: bool, hashOf: string -> string,
                 hasBoardAccess: set<int>) returns (r: Outcome, id: int, views: seq<UserView>)
    requires db.Valid()
    modifies db`users, db`userOptions, db`boardUser
    ensures db.Valid()
    ensures r != Ok ==> db.users == old(db.users) && db.userOptions == old(db.userOptions)
                        && db.boardUser == old(db.boardUser) && views == []
    ensures old(RouteStatus(db, s, Admin)) != Ok ==> r == old(RouteStatus(db, s, Admin))
    ensures old(RouteStatus(db, s, Admin)) == Ok && UsernameTaken(old(db.users), body.record.username)
            ==> r == ErrorAlert
    ensures old(RouteStatus(db, s, Admin)) == Ok && !UsernameTaken(old(db.users), body.record.username) && !loaderOk
            ==> r == ErrorAlert
    ensures r == Ok <==> old(RouteStatus(db, s, Admin)) == Ok && !UsernameTaken(old(db.users), body.record.username)
                         && loaderOk
    ensures r == Ok ==> id > 0 && id !in old(db.users) && id in db.users
    ensures r == Ok ==>
              exists optId :: (optId > 0 && optId !in old(db.userOptions)
                && db.userOptions == old(db.userOptions)[optId := DefaultOptions]
                && db.users == old(db.users)[id := body.record.(userOptionId := optId,
                     passwordHash := if body.password.Some? && body.passwordVerify == body.password
                                     then Some(hashOf(body.password.value)) else body.record.passwordHash)])
    ensures r == Ok ==>
              (var access := if body.sentDefaultBoard
                             then Some((if body.boardAccess.Some? then body.boardAccess.value else [])
                                       + [body.record.defaultBoardId])
                             else body.boardAccess;
               db.boardUser == if access.None? then old(db.boardUser)
                               else BoardAccessAfter(old(db.boardUser), id, access.value, hasBoardAccess))
    ensures r == Ok ==> forall i :: 0 <= i < |views| ==> views[i].id in db.users && views[i] == CleanUser(db, views[i].id)
    ensures r == Ok ==> ViewIds(views) == db.users.Keys
    ensures r == Ok ==> forall i, j :: 0 <= i < j < |views| ==> views[i].id != views[j].id
  {
    r := RouteStatus(db, s, Admin);
    if r != Ok {
      return r, 0, [];
    }
    if UsernameTaken(db.users, body.record.username) {
      return ErrorAlert, 0, [];
    }
    var record := body.record;
    if body.password.Some? && body.passwordVerify == body.password {
      record := record.(passwordHash := Some(hashOf(body.password.value)));
    }
    if !loaderOk {
      return ErrorAlert, 0, [];
    }
    var optId := NextId(db.userOptions.Keys);
    db.userOptions := db.userOptions[optId := DefaultOptions];
    id := NextId(db.users.Keys);
    db.users := db.users[id := record.(userOptionId := optId)];
    var access := body.boardAccess;
    if body.sentDefaultBoard {
      access := Some((if access.Some? then access.value else []) + [record.defaultBoardId]);
    }
    UpdateBoardAccess(db, id, access, hasBoardAccess);
    views := GetAllUsersCleaned(db, s.actorId);
    r := Ok;
  }

  /**
    removeUser (admins only): the row with that id is trashed; an id with
    no row is an error, except 0, which loads as the empty bean and
    "succeeds" without removing anything.
  */
  method RemoveUser(db: Db, s: Session, id: int) returns (r: Outcome, views: seq<UserView>)
    requires db.Valid()
    modifies db`users
    ensures db.Valid()
    ensures old(RouteStatus(db, s, Admin)) != Ok ==> r == old(RouteStatus(db, s, Admin))
    ensures old(RouteStatus(db, s, Admin)) == Ok && id != 0 && id !in old(db.users) ==> r == ErrorAlert
    ensures r == Ok <==> old(RouteStatus(db, s, Admin)) == Ok && (id in old(db.users) || id == 0)
    ensures r != Ok ==> db.users == old(db.users) && views == []
    ensures r == Ok ==> db.users == old(db.users) - {id}
    ensures r == Ok ==> forall i :: 0 <= i < |views| ==> views[i].id in db.users && views[i] == CleanUser(db, views[i].id)
    ensures r == Ok && s.actorId in db.users ==> ViewIds(views) == db.users.Keys
    // an admin who removed themselves is listed as a user with no row: the users sharing a board with them
    ensures r == Ok && s.actorId !in db.users ==> ViewIds(views) == db.VisibleUserIds(s.actorId)
    ensures r == Ok ==> forall i, j :: 0 <= i < j < |views| ==> views[i].id != views[j].id
  {
    r := RouteStatus(db, s, Admin);
    if r != Ok {
      return r, [];
    }
    if LoadedId(db.users, id) != id {
      return ErrorAlert, [];
    }
    db.users := db.users - {id};
    views := GetAllUsersCleaned(db, s.actorId);
    r := Ok;
  }
}
